=== FILE: README.md ===
# Appointment finder: booking store, date/time picker and search form

A Dafny model of the state-update logic of a small browser app for finding
medical centers and booking visits. The logic lives in three pages. Here it
is lifted out as pure functions over immutable records:

- **Booking page** (`BookingPage`, `TimeOfDay`). The page generates a rolling
  seven-day window of dates and tracks the selected date and time. Choosing a
  date clears the time. A guarded "confirm" appends one record to the stored
  list. The page also has the fixed table of ten time slots and the
  `getTimeOfDay` classifier.
- **Bookings list** (`MyBookings`, `BookingStore`). The page loads the stored
  list, where an absent key means an empty list. It shows one card per
  booking, using fallback chains that accept both the nested-`center` shape
  and the flat shape. Cancelling filters by `id` and writes the whole list
  back.
- **Search form** (`LandingPage`). This is the selected state and city plus
  two dropdown flags. The model covers the item selections, the two toggle
  clicks, dismissal by an outside pointer-down, the effect that runs when the
  state is emptied, and the submit guard.

`JsValues` supplies the parts of JavaScript these pages rely on: the kinds of
value a booking field holds in the model (undefined, null, strings, integers
and the two date renderings), truthiness, and `a || b`.

Modelling choices:

- Calendar days are integer day numbers.
- A rendered date is kept as the day it was rendered from. `IsoDate(d)`
  stands for `toISOString()` and `LongDate(d)` for the page's `formatDate`.
- The booking id is a parameter. The page takes it from the clock.
- The local-storage entry `bookings` is a `Slot`. It is either missing, the
  empty string, or a list of records. Serialising to JSON and parsing back is
  taken to give the same list.
- A click target is one of `InState`, `InCity` or `Elsewhere`.
- The fetched lists of states and cities arrive as events that replace the
  list. A city list can only arrive while a state is selected.

Behaviour of the code worth knowing:

- The list page parses the stored value with `JSON.parse` and does not catch
  errors. A stored value that is not valid JSON therefore makes the page
  throw.
- Booking ids come from `Date.now()` and nothing checks that they are
  unique. `MyBookings.BookingIdCollision` shows what a repeated id does to a
  cancel.
- The slot table lists "16:00" under Evening, but the classifier puts hour 16
  in Afternoon, because its Evening test is hour >= 17. The classifier
  `getTimeOfDay` is defined at `src/pages/BookingPage.js` line 84, but the
  page's rendering (lines 95-185) never calls it. So the mismatch never
  reaches the screen.
- The hour is read with `parseInt` and no radix. A "0x" prefix is therefore
  read as hexadecimal (`TimeOfDay.HexPrefixedTimes`).
- Both dropdowns can be open at the same time. A pointer-down inside one
  container never closes the other (`LandingPage.BothDropdownsCanBeOpen`).

## Model

| member | source | states |
|---|---|---|
| `BookingPage.GenerateAvailableDates` | src/pages/BookingPage.js:28-38 | Exactly 7 dates, the i-th being today + i; only the first is today (by `BookingPage.IsToday`, the page's `isToday` at lines 49-52, which compares calendar days); today becomes the selected date and the selected time is kept |
| `BookingPage.HandleDateSelect` | src/pages/BookingPage.js:54-57 | Selecting a date sets it and clears the selected time; the offered dates are unchanged |
| `BookingPage.HandleTimeSelect` | src/pages/BookingPage.js:59-61 | Selecting a time changes only the time |
| `BookingPage.HandleBooking` | src/pages/BookingPage.js:63-79 | Alerts iff the date or time is unset, and then storage is untouched; otherwise storage holds the earlier list unchanged and in order plus exactly one new record at the end, carrying the given id, center, date (ISO and long form) and time and no other field |
| `BookingPage.ConfirmEnabledIffBookingAccepted` | src/pages/BookingPage.js:175-179 | The confirm button is enabled exactly when confirming would not be refused |
| `BookingPage.DateSelectRequiresTime` | src/pages/BookingPage.js:54-67 | Right after a date is selected, confirming is refused and storage is unchanged |
| `BookingPage.DateThenTimeAccepted` | src/pages/BookingPage.js:54-67 | Selecting a date and then a non-empty time always lets the booking through |
| `TimeOfDay.ParseHour` | src/pages/BookingPage.js:85 | After a "0x"/"0X" prefix there is no hour exactly when no hexadecimal digit follows; otherwise there is no hour exactly when the string does not start with a decimal digit |
| `TimeOfDay.BeforeColon` | src/pages/BookingPage.js:85 | The first piece of splitting a time at colons: a colon-free prefix of the time, followed by a colon or by nothing |
| `TimeOfDay.ParseHourBeforeColon` | src/pages/BookingPage.js:85 | Reading the whole time gives the same hour as reading only its first piece when split at colons |
| `TimeOfDay.ParseDecimalHour` | src/pages/BookingPage.js:85 | A time that starts with decimal digits, followed by a non-digit or by nothing, and has no "0x" prefix reads as the decimal value of those digits |
| `TimeOfDay.ParseHexHour` | src/pages/BookingPage.js:85 | A time that starts with "0x" or "0X" and then hexadecimal digits, followed by a non-hexadecimal-digit or by nothing, reads as the hexadecimal value of those digits |
| `TimeOfDay.Classify` | src/pages/BookingPage.js:84-89 | Morning iff hour < 12, Afternoon iff 12 <= hour < 17, Evening iff hour >= 17 or the hour is NaN; every input gets one period |
| `TimeOfDay.GetTimeOfDay` | src/pages/BookingPage.js:84-89 | A time whose hour cannot be read is Evening; otherwise it is Morning iff the hour is below 12 and Evening iff the hour is 17 or more |
| `TimeOfDay.GetTimeOfDayOfLabel` | src/pages/BookingPage.js:84-89 | Every zero-padded "HH:00" label below 100 is classified by exactly the hour it was written from |
| `TimeOfDay.HexPrefixedTimes` | src/pages/BookingPage.js:85-88 | "0x11:00" reads as hour 17 and is Evening; "0x:00" has no hour and is Evening |
| `TimeOfDay.ClassifyMonotone` | src/pages/BookingPage.js:86-88 | A later hour never falls in an earlier period |
| `TimeOfDay.ParseSlotLabel` | src/pages/BookingPage.js:85 | Reading the hour of a zero-padded "HH:00" label gives back the hour it was written from |
| `TimeOfDay.TableHours` | src/pages/BookingPage.js:14-18 | The ten labels of the slot table read as hours 9 through 18 in table order |
| `TimeOfDay.SlotTableShape` | src/pages/BookingPage.js:14-18 | The slot table holds ten distinct labels in groups of 3, 4 and 3 |
| `TimeOfDay.SlotTableClassification` | src/pages/BookingPage.js:84-89 | Morning labels classify as Morning and afternoon labels as Afternoon; evening "16:00" classifies as Afternoon, "17:00" and "18:00" as Evening; periods never decrease along the table |
| `BookingStore.Load` | src/pages/MyBookings.js:12-17 | A missing or empty stored value reads as the empty list; otherwise the stored list is read |
| `MyBookings.Mount` | src/pages/MyBookings.js:8-17 | On mount the page holds what storage holds, which is the empty list when nothing is stored |
| `MyBookings.Cancel` | src/pages/MyBookings.js:20 | A booking survives iff it was there and its id differs from the given id; the list never grows; the length is unchanged iff no booking carries the id |
| `MyBookings.CancelAbsent` | src/pages/MyBookings.js:20 | Cancelling an id that no booking carries leaves the list identical |
| `MyBookings.CancelAppend` | src/pages/MyBookings.js:20 | Cancel distributes over concatenation, so survivors keep their original relative order |
| `MyBookings.CancelIdempotent` | src/pages/MyBookings.js:20 | Cancelling the same id twice gives the same list as once |
| `MyBookings.HandleCancel` | src/pages/MyBookings.js:19-23 | The stored list after a cancel equals the new in-memory list, which keeps exactly the bookings with a different id |
| `MyBookings.ShowCard` | src/pages/MyBookings.js:38-45 | Each center field comes from the nested center when truthy there, else from the flat record; date is formattedDate, else bookingDate, else date; time is time, else bookingTime; each line is shown iff a candidate is truthy; the key is the id when truthy, else the index |
| `MyBookings.FlatRecordShowsFlatFields` | src/pages/MyBookings.js:37-42 | A booking without a center object shows its own top-level center fields |
| `MyBookings.CancelFromCard` | src/pages/MyBookings.js:45-53 | The card's Cancel button removes its own booking iff the booking's id is truthy or is the number equal to its index, since the button passes `id || index` and the filter at line 20 compares `id` |
| `MyBookings.CancelFromCardWithoutId` | src/pages/MyBookings.js:45-53 | A booking stored without an id survives its own Cancel button |
| `MyBookings.BookingThenList` | src/pages/BookingPage.js:69-79 | After a confirmed booking the list page shows the earlier bookings followed by the new one, whose card shows the center's fields, the long date of the chosen day, the chosen time and the id as key |
| `MyBookings.BookingThenCancel` | src/pages/MyBookings.js:19-22 | Cancelling a just-created booking restores the earlier list, provided no earlier booking carries the same id |
| `MyBookings.BookingIdCollision` | src/pages/BookingPage.js:70 | When an earlier booking has the same clock-derived id, cancelling the new booking also removes the earlier one |
| `LandingPage.HandleStateSelect` | src/pages/LandingPage.js:64-69 | Selecting a state sets it, clears the city and closes both dropdowns |
| `LandingPage.HandleCitySelect` | src/pages/LandingPage.js:71-74 | Selecting a city sets it and closes the city dropdown; the state and the state dropdown are unchanged |
| `LandingPage.StateBoxClick` | src/pages/LandingPage.js:167-172 | A non-item click on the state box flips the state dropdown and changes nothing else |
| `LandingPage.CityBoxClick` | src/pages/LandingPage.js:201-207 | A non-item click on the city box flips the city dropdown when a state is selected, and otherwise does nothing |
| `LandingPage.HandleClickOutside` | src/pages/LandingPage.js:78-97 | A dropdown stays open iff it was open and the pointer-down landed inside either container; dismissal never opens a dropdown and changes nothing else |
| `LandingPage.SelectedStateEffect` | src/pages/LandingPage.js:25-32 | An empty selected state clears the city list and the selected city and nothing else; otherwise the form is unchanged |
| `LandingPage.HandleSubmit` | src/pages/LandingPage.js:57-62 | The form navigates iff both state and city are non-empty, and carries exactly those two values |
| `LandingPage.StepKeepsInv` | src/pages/LandingPage.js:64-74 | Every enabled event keeps: a city, an open city dropdown or a city list only while a state is selected |
| `LandingPage.RunKeepsInv` | src/pages/LandingPage.js:213 | The invariant holds after any sequence of events that can occur; a city item is only clickable while the city menu is rendered, which needs a selected state |
| `LandingPage.SubmitNeedsOnlyCity` | src/pages/LandingPage.js:57-61 | In every reachable form, submission navigates exactly when a city is selected |
| `LandingPage.BothDropdownsCanBeOpen` | src/pages/LandingPage.js:83-96 | A reachable event sequence leaves both dropdowns open at once, because a pointer-down inside the city box does not close the state dropdown |

## Left out

- Network fetches of states, cities and centers (`LandingPage.js` lines 34-55 and all of `SearchResults.js`). These are I/O against an outside service. Their results are only modelled as list-replacing events.
- The race in which a late city response overwrites the list of a newer selection. A city list is modelled as arriving only while some state is selected, and always for that state.
- The `loading` flag. It only changes what the city menu renders. So the model lets a city from the old list be clicked while a new list is loading, which the page does not allow.
- Field values other than undefined, null, strings, integers and the two date renderings. JSON booleans, fractions, arrays and objects are not modelled. Nor are list elements that are not objects: a null element makes the list page throw when it reads the element's center.
- `localStorage` and `JSON.parse`/`JSON.stringify`. These are browser APIs. A stored value that is not valid JSON, or is valid JSON but not a list, is not modelled.
- `Date`, `toISOString`, `toLocaleDateString`/`formatDate`, `toDateString` and `Date.now()`. These depend on the library and the time zone. Dates are day numbers and the id is a parameter.
- `encodeURIComponent` and the results URL built at submit. This is a library call; only the submit guard is modelled.
- The 50 ms delay before the outside-click listener is registered, and the DOM `contains`/`closest` tests. These are timing and DOM details; they become the click-target enum.
- Navigation after booking and the redirect away when the booking page has no center. These are routing and rendering, as are the carousel, the markup, `Navbar.js` and `App.js`.
- TimeOfDay.ParseHour: does not model `parseInt`'s skipping of leading whitespace or its sign handling. It reads a "0x" prefix and then hexadecimal digits, or else decimal digits. The slot labels contain nothing else. Its own contract gives only when there is no hour; the value read is stated by `TimeOfDay.ParseDecimalHour` and `TimeOfDay.ParseHexHour`.

=== FILE: booking_page.dfy ===
/**
  The booking page: the rolling seven-day window of dates, the selected date
  and time, and the guarded creation of a booking that is appended to the
  stored list. Calendar days are integer day numbers; the booking id, which
  the page takes from the clock, is a parameter.
 */
module BookingPage {
  import opened JsValues
  import opened BookingStore

  /** The page's picker state: the offered dates, the chosen date (or null) and the chosen time (or ""). */
  datatype Picker = Picker(availableDates: seq<int>, selectedDate: Option<int>, selectedTime: string)

  /** `isToday`: the same calendar day as today. */
  predicate IsToday(day: int, today: int) {
    day == today
  }

  /**
    On mount: offer today and the six days after it, in order, and preselect
    today. The selected time is left as it was.
   */
  method GenerateAvailableDates(p: Picker, today: int) returns (q: Picker)
    ensures |q.availableDates| == 7
    ensures forall i :: 0 <= i < 7 ==> q.availableDates[i] == today + i
    ensures forall i :: 0 <= i < 7 ==> (IsToday(q.availableDates[i], today) <==> i == 0)
    ensures q.selectedDate == Some(q.availableDates[0])
    ensures q.selectedTime == p.selectedTime
  {
    var dates: seq<int> := [];
    var i := 0;
    while i < 7
      invariant 0 <= i <= 7
      invariant |dates| == i
      invariant forall k :: 0 <= k < i ==> dates[k] == today + k
    {
      dates := dates + [today + i];
      i := i + 1;
    }
    q := p.(availableDates := dates, selectedDate := Some(dates[0]));
  }

  /** Choosing a date forgets the chosen time, so a time must be picked again. */
  function HandleDateSelect(p: Picker, date: int): (q: Picker)
    ensures q.selectedDate == Some(date)
    ensures q.selectedTime == ""
    ensures q.availableDates == p.availableDates
  {
    p.(selectedDate := Some(date), selectedTime := "")
  }

  /** Choosing a time changes nothing but the time. */
  function HandleTimeSelect(p: Picker, time: string): (q: Picker)
    ensures q.selectedTime == time
    ensures q.selectedDate == p.selectedDate
    ensures q.availableDates == p.availableDates
  {
    p.(selectedTime := time)
  }

  /** The confirm button's `disabled` attribute. */
  predicate ConfirmDisabled(p: Picker) {
    !p.selectedDate.Some? || p.selectedTime == ""
  }

  /** The record `handleBooking` builds: the center by value, both renderings of the date, the time. */
  function NewBooking(id: int, center: Center, day: int, time: string): Record {
    Record(
      id := Num(id),
      center := Some(center),
      flat := NoFields,
      date := IsoDate(day),
      formattedDate := LongDate(day),
      bookingDate := Undefined,
      time := Str(time),
      bookingTime := Undefined)
  }

  /** What `handleBooking` leaves behind: whether it raised the alert, and the storage slot. */
  datatype BookingResult = BookingResult(alerted: bool, storage: Slot)

  /**
    Confirming a booking. Without a date or a time the page alerts and writes
    nothing; otherwise it reads the stored list (absent meaning empty), appends
    exactly one record carrying the given id, center, date and time, and
    writes the whole list back.
   */
  function HandleBooking(p: Picker, center: Center, id: int, storage: Slot): (r: BookingResult)
    ensures r.alerted <==> p.selectedDate.None? || p.selectedTime == ""
    ensures r.alerted ==> r.storage == storage
    ensures !r.alerted ==>
      && r.storage.Holds?
      && |r.storage.records| == |Load(storage)| + 1
      && r.storage.records[..|Load(storage)|] == Load(storage)
    ensures !r.alerted ==>
      var b := r.storage.records[|Load(storage)|];
      && b.id == Num(id)
      && b.center == Some(center)
      && b.date == IsoDate(p.selectedDate.value)
      && b.formattedDate == LongDate(p.selectedDate.value)
      && b.time == Str(p.selectedTime)
      && b.flat == NoFields
      && b.bookingDate == Undefined
      && b.bookingTime == Undefined
  {
    if p.selectedDate.None? || p.selectedTime == "" then
      BookingResult(true, storage)
    else
      var existing := Load(storage);
      BookingResult(false, Holds(existing + [NewBooking(id, center, p.selectedDate.value, p.selectedTime)]))
  }

  /** The confirm button is enabled exactly when confirming would not be refused. */
  lemma ConfirmEnabledIffBookingAccepted(p: Picker, center: Center, id: int, storage: Slot)
    ensures !ConfirmDisabled(p) <==> !HandleBooking(p, center, id, storage).alerted
  {
  }

  /** Right after a date is chosen the booking is refused, whatever came before. */
  lemma DateSelectRequiresTime(p: Picker, date: int, center: Center, id: int, storage: Slot)
    ensures HandleBooking(HandleDateSelect(p, date), center, id, storage) == BookingResult(true, storage)
  {
  }

  /** Choosing a date and then a non-empty time always lets the booking through. */
  lemma DateThenTimeAccepted(p: Picker, date: int, time: string, center: Center, id: int, storage: Slot)
    requires time != ""
    ensures !HandleBooking(HandleTimeSelect(HandleDateSelect(p, date), time), center, id, storage).alerted
  {
  }
}

=== FILE: booking_store.dfy ===
/**
  The booking collection kept under the single local-storage key `bookings`.
  The whole list is read and written at once; JSON serialisation is taken to
  round-trip, so the slot holds the parsed list directly.
 */
module BookingStore {
  import opened JsValues

  /** The center fields the booking pages read, each a parsed JSON value. */
  datatype Field = HospitalName | Address | City | State | ZipCode

  /** A medical center record as returned by the directory and embedded by value. */
  datatype Center = Center(hospitalName: Val, address: Val, city: Val, state: Val, zipCode: Val)

  /** The value of one named field of a center. */
  function Get(c: Center, f: Field): Val {
    match f
    case HospitalName => c.hospitalName
    case Address => c.address
    case City => c.city
    case State => c.state
    case ZipCode => c.zipCode
  }

  /** A center object none of whose fields is present. */
  const NoFields := Center(Undefined, Undefined, Undefined, Undefined, Undefined)

  /**
    One stored booking, in the general shape the list page tolerates: either
    the nested shape (the center object under `center`) or the flat shape (the
    center fields directly on the booking, under `flat` here), with the date
    and time under any of their historical key names. A key that is absent
    reads as `Undefined`; `center == None` is an absent or null `center`.
   */
  datatype Record = Record(
    id: Val,
    center: Option<Center>,
    flat: Center,
    date: Val,
    formattedDate: Val,
    bookingDate: Val,
    time: Val,
    bookingTime: Val)

  /**
    What local storage holds under the key `bookings`: nothing at all, the
    empty string, or the serialisation of a list of records.
   */
  datatype Slot = Missing | Blank | Holds(records: seq<Record>)

  /**
    Reading the stored list: an absent or empty stored string yields the empty
    list, anything else is the list it holds. The booking page falls back to
    an empty list, and the list page reads only a non-empty stored string;
    both reduce to this.
   */
  function Load(slot: Slot): (bs: seq<Record>)
    ensures !slot.Holds? ==> bs == []
    ensures slot.Holds? ==> bs == slot.records
  {
    match slot
    case Holds(records) => records
    case _ => []
  }
}

=== FILE: js_values.dfy ===
/**
  The handful of JavaScript value semantics the pages rely on: the kinds of
  value a booking field holds in this model, which of them are truthy, and the
  short-circuit `a || b` the display code uses to fall back from one field to
  the next.
 */
module JsValues {

  /** A page variable that is either `null` (`None`) or holds a value, such as the selected date or a booking's center object. */
  datatype Option<+T> = None | Some(value: T)

  /**
    A field of a parsed booking record. Dates are never stored as calendar
    strings in this model: `IsoDate(d)` stands for `Date.toISOString()` of day
    number `d`, and `LongDate(d)` for the page's `formatDate` of that day. Both
    renderings are non-empty strings, hence truthy.
   */
  datatype Val =
    | Undefined
    | Null
    | Str(s: string)
    | Num(n: int)
    | IsoDate(day: int)
    | LongDate(day: int)

  /** JavaScript truthiness; `NaN` and booleans do not occur in this model. */
  predicate Truthy(v: Val) {
    match v
    case Undefined => false
    case Null => false
    case Str(s) => s != ""
    case Num(n) => n != 0
    case IsoDate(_) => true
    case LongDate(_) => true
  }

  /** JavaScript `a || b`: the left operand when it is truthy, else the right. */
  function Or(a: Val, b: Val): Val {
    if Truthy(a) then a else b
  }
}

=== FILE: landing_page.dfy ===
/**
  The landing page's search form: a state dropdown, a city dropdown that only
  works once a state is chosen, dismissal of open dropdowns by a pointer-down
  outside them, and a submit guard. The directory fetches are not modelled;
  their results arrive as events that replace the state or city list.
 */
module LandingPage {

  /** Where a pointer-down lands, relative to the two dropdown containers. */
  datatype Target = InState | InCity | Elsewhere

  datatype Search = Search(
    states: seq<string>,
    cities: seq<string>,
    selectedState: string,
    selectedCity: string,
    stateOpen: bool,
    cityOpen: bool)

  const Initial := Search([], [], "", "", false, false)

  /** Choosing a state: set it, clear the city, close both dropdowns. */
  function HandleStateSelect(s: Search, state: string): (t: Search)
    ensures t.selectedState == state && t.selectedCity == ""
    ensures !t.stateOpen && !t.cityOpen
    ensures t.states == s.states && t.cities == s.cities
  {
    s.(selectedState := state, stateOpen := false, selectedCity := "", cityOpen := false)
  }

  /** Choosing a city: set it and close the city dropdown; nothing else changes. */
  function HandleCitySelect(s: Search, city: string): (t: Search)
    ensures t.selectedCity == city && !t.cityOpen
    ensures t.selectedState == s.selectedState && t.stateOpen == s.stateOpen
    ensures t.states == s.states && t.cities == s.cities
  {
    s.(selectedCity := city, cityOpen := false)
  }

  /** A click on the state box that is not on a menu item flips the state dropdown. */
  function StateBoxClick(s: Search): (t: Search)
    ensures t.stateOpen == !s.stateOpen
    ensures t.(stateOpen := s.stateOpen) == s
  {
    s.(stateOpen := !s.stateOpen)
  }

  /** A click on the city box that is not on a menu item flips the city dropdown, once a state is chosen. */
  function CityBoxClick(s: Search): (t: Search)
    ensures s.selectedState != "" ==> t.cityOpen == !s.cityOpen
    ensures s.selectedState == "" ==> t == s
    ensures t.(cityOpen := s.cityOpen) == s
  {
    if s.selectedState != "" then s.(cityOpen := !s.cityOpen) else s
  }

  /**
    `handleClickOutside`, with both containers present: an open dropdown
    closes only when the pointer lands outside both containers. It never opens
    one and touches nothing else.
   */
  function HandleClickOutside(s: Search, target: Target): (t: Search)
    ensures t.stateOpen <==> s.stateOpen && target != Elsewhere
    ensures t.cityOpen <==> s.cityOpen && target != Elsewhere
    ensures t.(stateOpen := s.stateOpen, cityOpen := s.cityOpen) == s
  {
    var closeState := s.stateOpen && target != InState && target != InCity;
    var closeCity := s.cityOpen && target != InCity && target != InState;
    s.(stateOpen := if closeState then false else s.stateOpen,
       cityOpen := if closeCity then false else s.cityOpen)
  }

  /**
    The effect that runs when the selected state changes: an emptied state
    clears the city list and the chosen city. For a non-empty state it starts
    the city fetch, which is not modelled.
   */
  function SelectedStateEffect(s: Search): (t: Search)
    ensures s.selectedState == "" ==> t.cities == [] && t.selectedCity == ""
    ensures s.selectedState == "" ==> t.(cities := s.cities, selectedCity := s.selectedCity) == s
    ensures s.selectedState != "" ==> t == s
  {
    if s.selectedState == "" then s.(cities := [], selectedCity := "") else s
  }

  datatype SubmitOutcome = Stay | Navigate(state: string, city: string)

  /** Submitting the form goes to the results exactly when both a state and a city are chosen. */
  function HandleSubmit(s: Search): (r: SubmitOutcome)
    ensures r.Navigate? <==> s.selectedState != "" && s.selectedCity != ""
    ensures r.Navigate? ==> r.state == s.selectedState && r.city == s.selectedCity
  {
    if s.selectedState != "" && s.selectedCity != "" then Navigate(s.selectedState, s.selectedCity) else Stay
  }

  /** The things that can happen to the form. */
  datatype Event =
    | StatesArrived(states: seq<string>)
    | CitiesArrived(cities: seq<string>)
    | StateItemClicked(state: string)
    | CityItemClicked(city: string)
    | StateBoxClicked
    | CityBoxClicked
    | PointerDown(target: Target)

  /**
    When an event can occur. A state item exists only while the state menu is
    open; a city item only while the city menu is rendered, which needs the
    city dropdown open and a state chosen. A city list arrives only in answer
    to the fetch a chosen state started.
   */
  predicate Enabled(s: Search, e: Event) {
    match e
    case StatesArrived(_) => true
    case CitiesArrived(_) => s.selectedState != ""
    case StateItemClicked(state) => s.stateOpen && state in s.states
    case CityItemClicked(city) => s.cityOpen && s.selectedState != "" && city in s.cities
    case StateBoxClicked => true
    case CityBoxClicked => true
    case PointerDown(_) => true
  }

  function Handle(s: Search, e: Event): Search {
    match e
    case StatesArrived(states) => s.(states := states)
    case CitiesArrived(cities) => s.(cities := cities)
    case StateItemClicked(state) => HandleStateSelect(s, state)
    case CityItemClicked(city) => HandleCitySelect(s, city)
    case StateBoxClicked => StateBoxClick(s)
    case CityBoxClicked => CityBoxClick(s)
    case PointerDown(target) => HandleClickOutside(s, target)
  }

  /** One event, followed by the selected-state effect when the selected state changed. */
  function Step(s: Search, e: Event): Search {
    var t := Handle(s, e);
    if t.selectedState != s.selectedState then SelectedStateEffect(t) else t
  }

  /**
    What the form keeps true: no city, no open city dropdown and no city list
    without a chosen state.
   */
  predicate Inv(s: Search) {
    && (s.selectedCity != "" ==> s.selectedState != "")
    && (s.cityOpen ==> s.selectedState != "")
    && (s.selectedState == "" ==> s.cities == [])
  }

  lemma StepKeepsInv(s: Search, e: Event)
    requires Inv(s) && Enabled(s, e)
    ensures Inv(Step(s, e))
  {
  }

  /** The form after a sequence of events. */
  function Run(s: Search, es: seq<Event>): Search
    decreases |es|
  {
    if |es| == 0 then s else Run(Step(s, es[0]), es[1..])
  }

  /** Each event of `es` can occur in the form it meets. */
  predicate Admissible(s: Search, es: seq<Event>)
    decreases |es|
  {
    |es| == 0 || (Enabled(s, es[0]) && Admissible(Step(s, es[0]), es[1..]))
  }

  /** Every form reachable from the initial one keeps the invariant. */
  lemma {:induction false} RunKeepsInv(s: Search, es: seq<Event>)
    requires Inv(s) && Admissible(s, es)
    ensures Inv(Run(s, es))
    decreases |es|
  {
    if |es| > 0 {
      StepKeepsInv(s, es[0]);
      RunKeepsInv(Step(s, es[0]), es[1..]);
    }
  }

  /** In a reachable form, the search can be submitted exactly when a city is chosen. */
  lemma SubmitNeedsOnlyCity(es: seq<Event>)
    requires Admissible(Initial, es)
    ensures HandleSubmit(Run(Initial, es)).Navigate? <==> Run(Initial, es).selectedCity != ""
  {
    RunKeepsInv(Initial, es);
  }

  /**
    The two dropdowns are not exclusive: a pointer-down inside the city box
    leaves an open state dropdown open, so the following click can open the
    city dropdown beside it.
   */
  lemma BothDropdownsCanBeOpen()
    ensures var es := [StatesArrived(["CA"]), StateBoxClicked, StateItemClicked("CA"),
                       StateBoxClicked, PointerDown(InCity), CityBoxClicked];
      && Admissible(Initial, es)
      && Run(Initial, es).stateOpen && Run(Initial, es).cityOpen
  {
    var s1 := Step(Initial, StatesArrived(["CA"]));
    var s2 := Step(s1, StateBoxClicked);
    var s3 := Step(s2, StateItemClicked("CA"));
    var s4 := Step(s3, StateBoxClicked);
    var s5 := Step(s4, PointerDown(InCity));
    var s6 := Step(s5, CityBoxClicked);
    assert s6.stateOpen && s6.cityOpen;
  }
}

=== FILE: my_bookings.dfy ===
/**
  The bookings list page: it loads the stored list once, shows one card per
  booking by falling back across the two stored shapes, and cancels a booking
  by filtering the list on `id` and writing the result back.
 */
module MyBookings {
  import opened JsValues
  import opened BookingStore
  import BookingPage

  /** The page's in-memory list next to what local storage holds. */
  datatype Page = Page(bookings: seq<Record>, storage: Slot)

  /** The page shows what storage holds. */
  predicate InSync(p: Page) {
    Load(p.storage) == p.bookings
  }

  /**
    Mounting: the list starts empty and is replaced by the stored list only
    when something non-empty is stored.
   */
  function Mount(storage: Slot): (p: Page)
    ensures p.storage == storage
    ensures InSync(p)
    ensures !storage.Holds? ==> p.bookings == []
  {
    Page(Load(storage), storage)
  }

  /** Keep, in order, every booking whose id differs from the given one. */
  function Cancel(bs: seq<Record>, id: Val): (r: seq<Record>)
    ensures forall b :: b in r <==> b in bs && b.id != id
    ensures |r| <= |bs|
    ensures |r| == |bs| <==> forall b :: b in bs ==> b.id != id
  {
    if |bs| == 0 then []
    else if bs[0].id != id then [bs[0]] + Cancel(bs[1..], id)
    else Cancel(bs[1..], id)
  }

  /** Cancelling an id no booking carries leaves the list exactly as it was. */
  lemma {:induction false} CancelAbsent(bs: seq<Record>, id: Val)
    requires forall b :: b in bs ==> b.id != id
    ensures Cancel(bs, id) == bs
  {
    if |bs| > 0 {
      assert bs[0] in bs;
      assert forall b :: b in bs[1..] ==> b in bs;
      CancelAbsent(bs[1..], id);
      assert [bs[0]] + bs[1..] == bs;
    }
  }

  /**
    Cancelling works piece by piece: the survivors of a concatenation are the
    survivors of each part, in the same order.
   */
  lemma {:induction false} CancelAppend(a: seq<Record>, b: seq<Record>, id: Val)
    ensures Cancel(a + b, id) == Cancel(a, id) + Cancel(b, id)
  {
    if |a| == 0 {
      assert a + b == b;
    } else {
      assert (a + b)[0] == a[0];
      assert (a + b)[1..] == a[1..] + b;
      CancelAppend(a[1..], b, id);
    }
  }

  /** Cancelling the same id twice removes nothing the first time did not. */
  lemma CancelIdempotent(bs: seq<Record>, id: Val)
    ensures Cancel(Cancel(bs, id), id) == Cancel(bs, id)
  {
    CancelAbsent(Cancel(bs, id), id);
  }

  /**
    `handleCancel`: the page's list becomes the filtered list, and exactly that
    list is written back to storage.
   */
  function HandleCancel(p: Page, id: Val): (q: Page)
    ensures InSync(q)
    ensures forall b :: b in q.bookings <==> b in p.bookings && b.id != id
    ensures |q.bookings| <= |p.bookings|
  {
    var updated := Cancel(p.bookings, id);
    Page(updated, Holds(updated))
  }

  /** What one card displays. */
  datatype Card = Card(key: Val, place: Center, date: Val, time: Val)

  /** Field `f` of the nested center, undefined when the booking has no center object. */
  function Nested(r: Record, f: Field): Val {
    match r.center
    case Some(c) => Get(c, f)
    case None => Undefined
  }

  /** A card's key, also what its Cancel button passes: the id when truthy, else the card's index. */
  function DisplayKey(r: Record, index: nat): Val {
    Or(r.id, Num(index))
  }

  /**
    One card: each center field from the nested center when it is truthy there,
    else from the flat record; the date from `formattedDate`, else
    `bookingDate`, else `date`; the time from `time`, else `bookingTime`. A
    line is shown exactly when one of its candidates is truthy.
   */
  function ShowCard(r: Record, index: nat): (c: Card)
    ensures forall f :: Truthy(Nested(r, f)) ==> Get(c.place, f) == Nested(r, f)
    ensures forall f :: !Truthy(Nested(r, f)) ==> Get(c.place, f) == Get(r.flat, f)
    ensures Truthy(r.formattedDate) ==> c.date == r.formattedDate
    ensures !Truthy(r.formattedDate) && Truthy(r.bookingDate) ==> c.date == r.bookingDate
    ensures !Truthy(r.formattedDate) && !Truthy(r.bookingDate) ==> c.date == r.date
    ensures Truthy(c.date) <==> Truthy(r.formattedDate) || Truthy(r.bookingDate) || Truthy(r.date)
    ensures Truthy(r.time) ==> c.time == r.time
    ensures !Truthy(r.time) ==> c.time == r.bookingTime
    ensures Truthy(c.time) <==> Truthy(r.time) || Truthy(r.bookingTime)
    ensures Truthy(r.id) ==> c.key == r.id
    ensures !Truthy(r.id) ==> c.key == Num(index)
  {
    Card(
      key := DisplayKey(r, index),
      place := Center(
        Or(Nested(r, HospitalName), r.flat.hospitalName),
        Or(Nested(r, Address), r.flat.address),
        Or(Nested(r, City), r.flat.city),
        Or(Nested(r, State), r.flat.state),
        Or(Nested(r, ZipCode), r.flat.zipCode)),
      date := Or(Or(r.formattedDate, r.bookingDate), r.date),
      time := Or(r.time, r.bookingTime))
  }

  /**
    A flat-shape booking (no `center` object) shows its own top-level center
    fields, whatever they hold.
   */
  lemma FlatRecordShowsFlatFields(r: Record, index: nat)
    requires r.center.None?
    ensures ShowCard(r, index).place == r.flat
  {
  }

  /**
    The card's Cancel button passes the card's key, but the filter compares
    against the stored id. So cancelling from a card removes that
    booking exactly when its key is its own id: when the id is truthy, or when
    it is the number 0 on the first card. A booking without an id is never
    removed by its own button; instead every booking whose id equals its
    index goes.
   */
  lemma CancelFromCard(bs: seq<Record>, i: nat)
    requires i < |bs|
    ensures var r := Cancel(bs, DisplayKey(bs[i], i));
      bs[i] !in r <==> Truthy(bs[i].id) || bs[i].id == Num(i)
  {
  }

  /** In particular, a booking stored without an id survives its own Cancel button. */
  lemma CancelFromCardWithoutId(bs: seq<Record>, i: nat)
    requires i < |bs|
    requires bs[i].id == Undefined
    ensures bs[i] in HandleCancel(Page(bs, Holds(bs)), ShowCard(bs[i], i).key).bookings
  {
  }

  /**
    Confirming a booking and then opening this page shows every earlier
    booking followed by the new one, whose card shows the center's truthy
    fields, the long date of the chosen day, the chosen time, and the id as
    its key.
   */
  lemma BookingThenList(p: BookingPage.Picker, center: Center, id: int, storage: Slot)
    requires !BookingPage.ConfirmDisabled(p)
    ensures var after := BookingPage.HandleBooking(p, center, id, storage);
      var page := Mount(after.storage);
      && |page.bookings| == |Load(storage)| + 1
      && page.bookings[..|Load(storage)|] == Load(storage)
      && var c := ShowCard(page.bookings[|Load(storage)|], |Load(storage)|);
      && (forall f :: Truthy(Get(center, f)) ==> Get(c.place, f) == Get(center, f))
      && (forall f :: !Truthy(Get(center, f)) ==> !Truthy(Get(c.place, f)))
      && c.date == LongDate(p.selectedDate.value)
      && c.time == Str(p.selectedTime)
      && (id != 0 ==> c.key == Num(id))
  {
  }

  /**
    Cancelling a booking right after creating it restores the earlier list,
    provided no earlier booking carries the same id.
   */
  lemma BookingThenCancel(p: BookingPage.Picker, center: Center, id: int, storage: Slot)
    requires !BookingPage.ConfirmDisabled(p)
    requires forall b :: b in Load(storage) ==> b.id != Num(id)
    ensures HandleCancel(Mount(BookingPage.HandleBooking(p, center, id, storage).storage), Num(id)).bookings
      == Load(storage)
  {
    var after := BookingPage.HandleBooking(p, center, id, storage);
    var bs := Load(after.storage);
    var earlier := Load(storage);
    assert bs == earlier + [bs[|earlier|]];
    CancelAppend(earlier, [bs[|earlier|]], Num(id));
    CancelAbsent(earlier, Num(id));
    assert Cancel([bs[|earlier|]], Num(id)) == [];
  }

  /**
    The clock-derived id is not unique: when an earlier booking carries the
    same id, cancelling the new booking removes the earlier one too.
   */
  lemma BookingIdCollision(p: BookingPage.Picker, center: Center, id: int, storage: Slot, j: nat)
    requires !BookingPage.ConfirmDisabled(p)
    requires j < |Load(storage)| && Load(storage)[j].id == Num(id)
    ensures var bs := Mount(BookingPage.HandleBooking(p, center, id, storage).storage).bookings;
      |HandleCancel(Page(bs, Holds(bs)), Num(id)).bookings| < |Load(storage)|
  {
    var after := BookingPage.HandleBooking(p, center, id, storage);
    var bs := Load(after.storage);
    var earlier := Load(storage);
    assert bs == earlier + [bs[|earlier|]];
    CancelAppend(earlier, [bs[|earlier|]], Num(id));
    assert earlier[j] in earlier;
    assert Cancel([bs[|earlier|]], Num(id)) == [];
  }
}

=== FILE: time_of_day.dfy ===
/**
  The booking page's fixed table of appointment slots and its `getTimeOfDay`
  classifier, which reads the hour of an "HH:MM" string with `parseInt` and
  compares it against 12 and 17.
 */
module TimeOfDay {

  datatype Period = Morning | Afternoon | Evening

  /** The order of the periods through the day. */
  function Rank(p: Period): nat {
    match p
    case Morning => 0
    case Afternoon => 1
    case Evening => 2
  }

  /** The result of reading an integer prefix: a number, or `NaN` when no digit leads. */
  datatype Parsed = NaN | Int(n: nat)

  /** A decimal digit. */
  predicate IsDigit(c: char) {
    '0' <= c <= '9'
  }

  /** A digit of the given radix; only radixes 10 and 16 occur. */
  predicate IsDigitIn(c: char, radix: nat) {
    if radix == 16 then IsDigit(c) || 'a' <= c <= 'f' || 'A' <= c <= 'F' else IsDigit(c)
  }

  /** The length of the run of digits of the given radix that begins `s`. */
  function DigitRun(s: string, radix: nat): (n: nat)
    ensures n <= |s|
    ensures forall i :: 0 <= i < n ==> IsDigitIn(s[i], radix)
    ensures n < |s| ==> !IsDigitIn(s[n], radix)
  {
    if |s| == 0 || !IsDigitIn(s[0], radix) then 0 else 1 + DigitRun(s[1..], radix)
  }

  function DigitValue(c: char, radix: nat): (d: nat)
    requires IsDigitIn(c, radix)
    ensures radix == 16 ==> d < 16
    ensures radix != 16 ==> d < 10
  {
    if IsDigit(c) then c as int - '0' as int
    else if 'a' <= c <= 'f' then c as int - 'a' as int + 10
    else c as int - 'A' as int + 10
  }

  /** The value of a string of digits of the given radix, most significant first. */
  function DigitsValue(ds: string, radix: nat): nat
    requires forall i :: 0 <= i < |ds| ==> IsDigitIn(ds[i], radix)
  {
    if |ds| == 0 then 0
    else DigitsValue(ds[..|ds| - 1], radix) * radix + DigitValue(ds[|ds| - 1], radix)
  }

  /** A leading "0x" or "0X", which switches an integer read without a radix to hexadecimal. */
  predicate HasHexPrefix(s: string) {
    |s| >= 2 && s[0] == '0' && (s[1] == 'x' || s[1] == 'X')
  }

  /**
    The hour `getTimeOfDay` reads from a time: the integer prefix of the part
    before the first colon. Without an explicit radix a "0x" prefix makes it
    hexadecimal, otherwise it is decimal. The digits stop at the colon anyway,
    so the prefix of the whole string is read. It is `NaN` when no digit
    follows the prefix.
   */
  function ParseHour(time: string): (h: Parsed)
    ensures HasHexPrefix(time) ==> (h.NaN? <==> |time| == 2 || !IsDigitIn(time[2], 16))
    ensures !HasHexPrefix(time) ==> (h.NaN? <==> |time| == 0 || !IsDigit(time[0]))
  {
    if HasHexPrefix(time) then
      var digits := time[2..];
      var n := DigitRun(digits, 16);
      if n == 0 then NaN else Int(DigitsValue(digits[..n], 16))
    else
      var n := DigitRun(time, 10);
      if n == 0 then NaN else Int(DigitsValue(time[..n], 10))
  }

  /** The part of `s` before its first colon, the first piece of splitting `s` at colons. */
  function BeforeColon(s: string): (p: string)
    ensures p <= s
    ensures forall i :: 0 <= i < |p| ==> p[i] != ':'
    ensures |p| < |s| ==> s[|p|] == ':'
  {
    if |s| == 0 || s[0] == ':' then [] else [s[0]] + BeforeColon(s[1..])
  }

  /**
    A digit run ends at the end of a prefix when the prefix is followed by a
    non-digit or by nothing.
   */
  lemma {:induction false} DigitRunOfPrefix(p: string, s: string, radix: nat)
    requires p <= s
    requires |p| == |s| || !IsDigitIn(s[|p|], radix)
    ensures DigitRun(p, radix) == DigitRun(s, radix)
  {
    if |p| > 0 && IsDigitIn(p[0], radix) {
      assert p[1..] <= s[1..];
      DigitRunOfPrefix(p[1..], s[1..], radix);
    }
  }

  /**
    Reading the whole time gives the same hour as reading only the part
    before its first colon: no digit is a colon, so the digits stop there.
   */
  lemma ParseHourBeforeColon(time: string)
    ensures ParseHour(BeforeColon(time)) == ParseHour(time)
  {
    var b := BeforeColon(time);
    assert HasHexPrefix(b) <==> HasHexPrefix(time);
    if HasHexPrefix(time) {
      HexHourOfPrefix(b, time);
    } else {
      DecimalHourOfPrefix(b, time);
    }
  }

  /** A hexadecimal hour ends where a prefix ends, when a colon or nothing follows it. */
  lemma HexHourOfPrefix(p: string, s: string)
    requires p <= s && HasHexPrefix(p)
    requires |p| == |s| || s[|p|] == ':'
    ensures ParseHour(p) == ParseHour(s)
  {
    var pd, sd := p[2..], s[2..];
    assert pd <= sd;
    DigitRunOfPrefix(pd, sd, 16);
    var n := DigitRun(sd, 16);
    assert pd[..n] == sd[..n];
  }

  /** A decimal hour ends where a prefix ends, when a colon or nothing follows it. */
  lemma DecimalHourOfPrefix(p: string, s: string)
    requires p <= s && !HasHexPrefix(p) && !HasHexPrefix(s)
    requires |p| == |s| || s[|p|] == ':'
    ensures ParseHour(p) == ParseHour(s)
  {
    DigitRunOfPrefix(p, s, 10);
    var n := DigitRun(s, 10);
    assert p[..n] == s[..n];
  }

  /**
    A time whose first `n` characters are decimal digits, followed by a
    non-digit or by nothing, reads as the decimal value of those digits, so
    "9:00" is hour 9 and "18:30" hour 18.
   */
  lemma ParseDecimalHour(time: string, n: nat)
    requires 0 < n <= |time| && forall i :: 0 <= i < n ==> IsDigit(time[i])
    requires n == |time| || !IsDigit(time[n])
    requires !HasHexPrefix(time)
    ensures ParseHour(time) == Int(DigitsValue(time[..n], 10))
  {
  }

  /**
    After "0x" or "0X", a run of hexadecimal digits up to position `n`,
    followed by a non-digit or by nothing, reads as its hexadecimal value.
   */
  lemma ParseHexHour(time: string, n: nat)
    requires HasHexPrefix(time)
    requires 2 < n <= |time| && forall i :: 2 <= i < n ==> IsDigitIn(time[i], 16)
    requires n == |time| || !IsDigitIn(time[n], 16)
    ensures ParseHour(time) == Int(DigitsValue(time[2..n], 16))
  {
    var digits := time[2..];
    assert forall i :: 0 <= i < n - 2 ==> digits[i] == time[i + 2];
    assert n == |time| || digits[n - 2] == time[n];
    assert DigitRun(digits, 16) == n - 2;
    assert digits[..n - 2] == time[2..n];
  }

  /**
    The two comparisons of `getTimeOfDay`. `NaN < 12` and `NaN < 17` are both
    false in JavaScript, so an unparsable time falls through to Evening.
   */
  function Classify(h: Parsed): (p: Period)
    ensures p == Morning <==> h.Int? && h.n < 12
    ensures p == Afternoon <==> h.Int? && 12 <= h.n < 17
    ensures p == Evening <==> h.NaN? || h.n >= 17
  {
    if h.Int? && h.n < 12 then Morning
    else if h.Int? && h.n < 17 then Afternoon
    else Evening
  }

  /**
    `getTimeOfDay`: a time whose hour cannot be read is Evening; otherwise the
    hour decides, with Morning before 12 and Evening from 17 on.
   */
  function GetTimeOfDay(time: string): (p: Period)
    ensures ParseHour(time).NaN? ==> p == Evening
    ensures ParseHour(time).Int? ==> (p == Morning <==> ParseHour(time).n < 12)
    ensures ParseHour(time).Int? ==> (p == Evening <==> ParseHour(time).n >= 17)
  {
    Classify(ParseHour(time))
  }

  /** A later hour never falls in an earlier period. */
  lemma ClassifyMonotone(a: nat, b: nat)
    requires a <= b
    ensures Rank(Classify(Int(a))) <= Rank(Classify(Int(b)))
  {
  }

  function DigitChar(d: nat): (c: char)
    requires d < 10
    ensures IsDigit(c)
  {
    ('0' as int + d) as char
  }

  /** The "HH:00" label of a whole hour below 100, zero-padded to two digits. */
  function SlotLabel(h: nat): string
    requires h < 100
  {
    [DigitChar(h / 10), DigitChar(h % 10)] + ":00"
  }

  /** Reading back the hour of a slot label gives the hour it was written from. */
  lemma ParseSlotLabel(h: nat)
    requires h < 100
    ensures ParseHour(SlotLabel(h)) == Int(h)
  {
    var s := SlotLabel(h);
    assert !HasHexPrefix(s);
    assert DigitValue(s[0], 10) == h / 10 && DigitValue(s[1], 10) == h % 10;
    assert s[1..][1..] == s[2..];
    assert !IsDigitIn(s[2..][0], 10);
    assert DigitRun(s, 10) == 2;
    assert s[..2][..1] == s[..1];
    assert s[..1][..0] == [];
    assert DigitsValue(s[..1], 10) == h / 10;
    assert DigitsValue(s[..2], 10) == h;
  }

  /** Every slot label is classified by the hour it was written from. */
  lemma GetTimeOfDayOfLabel(h: nat)
    requires h < 100
    ensures GetTimeOfDay(SlotLabel(h)) == Classify(Int(h))
  {
    ParseSlotLabel(h);
  }

  /**
    A "0x" prefix is read as hexadecimal: "0x11:00" has hour 17 and is
    Evening, while "0x:00" has no hour at all and is Evening too.
   */
  lemma HexPrefixedTimes()
    ensures ParseHour("0x11:00") == Int(17) && GetTimeOfDay("0x11:00") == Evening
    ensures ParseHour("0x:00") == NaN && GetTimeOfDay("0x:00") == Evening
  {
    var s := "0x11:00";
    assert HasHexPrefix(s);
    var d := s[2..];
    assert d == "11:00";
    assert d[1..][1..] == d[2..];
    assert !IsDigitIn(d[2..][0], 16);
    assert DigitRun(d, 16) == 2;
    assert d[..2][..1] == d[..1];
    assert d[..1][..0] == [];
    assert DigitValue(d[0], 16) == 1 && DigitValue(d[1], 16) == 1;
    assert DigitsValue(d[..1], 16) == 1;
    assert DigitsValue(d[..2], 16) == 17;
    assert HasHexPrefix("0x:00") && !IsDigitIn("0x:00"[2], 16);
  }

  /** The three groups of slot labels the booking page offers. */
  datatype Slots = Slots(morning: seq<string>, afternoon: seq<string>, evening: seq<string>)

  const TimeSlots := Slots(
    ["09:00", "10:00", "11:00"],
    ["12:00", "13:00", "14:00", "15:00"],
    ["16:00", "17:00", "18:00"])

  function AllSlots(t: Slots): seq<string> {
    t.morning + t.afternoon + t.evening
  }

  /** The hour each label of the table is read as: 9 for the first, rising by one. */
  lemma TableHours()
    ensures |AllSlots(TimeSlots)| == 10
    ensures forall i :: 0 <= i < 10 ==> ParseHour(AllSlots(TimeSlots)[i]) == Int(9 + i)
  {
    var all := AllSlots(TimeSlots);
    var labels := [SlotLabel(9), SlotLabel(10), SlotLabel(11), SlotLabel(12), SlotLabel(13),
                   SlotLabel(14), SlotLabel(15), SlotLabel(16), SlotLabel(17), SlotLabel(18)];
    assert all == ["09:00", "10:00", "11:00", "12:00", "13:00", "14:00", "15:00", "16:00", "17:00", "18:00"];
    assert SlotLabel(9) == "09:00";
    assert SlotLabel(10) == "10:00";
    assert SlotLabel(11) == "11:00";
    assert SlotLabel(12) == "12:00";
    assert SlotLabel(13) == "13:00";
    assert SlotLabel(14) == "14:00";
    assert SlotLabel(15) == "15:00";
    assert SlotLabel(16) == "16:00";
    assert SlotLabel(17) == "17:00";
    assert SlotLabel(18) == "18:00";
    assert all == labels;
    assert forall i :: 0 <= i < 10 ==> all[i] == SlotLabel(9 + i);
    forall i | 0 <= i < 10
      ensures ParseHour(all[i]) == Int(9 + i)
    {
      ParseSlotLabel(9 + i);
    }
  }

  /** The slot table holds ten distinct labels, grouped three, four and three. */
  lemma SlotTableShape()
    ensures |TimeSlots.morning| == 3 && |TimeSlots.afternoon| == 4 && |TimeSlots.evening| == 3
    ensures |AllSlots(TimeSlots)| == 10
    ensures forall i, j :: 0 <= i < j < |AllSlots(TimeSlots)| ==> AllSlots(TimeSlots)[i] != AllSlots(TimeSlots)[j]
  {
    TableHours();
  }

  /**
    How the classifier sorts the table: every morning label is Morning and
    every afternoon label Afternoon, but of the evening labels only "17:00"
    and "18:00" are Evening; "16:00", shown under Evening, classifies as
    Afternoon. Along the table the periods never go back.
   */
  lemma SlotTableClassification()
    ensures forall t :: t in TimeSlots.morning ==> GetTimeOfDay(t) == Morning
    ensures forall t :: t in TimeSlots.afternoon ==> GetTimeOfDay(t) == Afternoon
    ensures GetTimeOfDay(TimeSlots.evening[0]) == Afternoon
    ensures forall k :: 1 <= k < |TimeSlots.evening| ==> GetTimeOfDay(TimeSlots.evening[k]) == Evening
    ensures forall i, j :: 0 <= i <= j < |AllSlots(TimeSlots)| ==>
      Rank(GetTimeOfDay(AllSlots(TimeSlots)[i])) <= Rank(GetTimeOfDay(AllSlots(TimeSlots)[j]))
  {
    TableHours();
    var all := AllSlots(TimeSlots);
    assert forall i :: 0 <= i < 10 ==> GetTimeOfDay(all[i]) == Classify(Int(9 + i));
    forall i, j | 0 <= i <= j < |all|
      ensures Rank(GetTimeOfDay(all[i])) <= Rank(GetTimeOfDay(all[j]))
    {
      ClassifyMonotone(9 + i, 9 + j);
    }
    forall t | t in TimeSlots.morning
      ensures GetTimeOfDay(t) == Morning
    {
      var k :| 0 <= k < 3 && TimeSlots.morning[k] == t;
      assert all[k] == t;
    }
    forall t | t in TimeSlots.afternoon
      ensures GetTimeOfDay(t) == Afternoon
    {
      var k :| 0 <= k < 4 && TimeSlots.afternoon[k] == t;
      assert all[3 + k] == t;
    }
    assert all[7] == TimeSlots.evening[0];
    forall k | 1 <= k < |TimeSlots.evening|
      ensures GetTimeOfDay(TimeSlots.evening[k]) == Evening
    {
      assert all[7 + k] == TimeSlots.evening[k];
    }
  }
}
